=== FILE: README.md ===
# hugo-autopublish: configuration loader and webhook dispatch

hugo-autopublish is a small server that receives GitHub webhook deliveries.
On an authentic push it runs `git pull` in a local checkout and then rebuilds
the site with `hugo -d <serving dir>`. Nearly all of `main.go` is I/O. This
project models the two pieces of logic inside it, as pure Dafny functions with
proved properties.

- **Config** (`config.dfy`) models the `env` file loader. `Cut` splits a line
  at its first `=`, as Go's `strings.Cut` does. `Load` writes each pair into
  the environment in file order. The first line without `=` aborts the load,
  and the outcome `Invalid(envSoFar, badLine)` keeps the partly applied
  environment. `SetGlobalVars` reads the four settings back, with `""` as the
  default. `Startup` composes the two, as `main` does.
- **Webhook** (`webhook.dfy`) models one request. `HandleGithubWebhook` maps
  an abstract request to the trace of effects it performs. The request carries
  the signature check as a `bool` and the decoded event as an
  `Option<EventKind>`. The outcomes of the directory check, `git pull` and
  `hugo` are parameters. `Actions` projects a trace onto the `Pull`/`Publish`
  actions.
- **Wrappers** (`wrappers.dfy`) holds the `Option` type.

A blank line has no `=`, so it aborts the load (`Config.BlankLineAborts`,
main.go:37-40).

## Model

| member | source | states |
|---|---|---|
| Config.Cut | main.go:37 | A line yields a pair exactly when it contains `=`; the key holds no `=`, and key, `=`, value put back together give the line, so the split is at the first `=` |
| Config.CutJoin | main.go:37 | Cutting `key=value` gives back that key and value whenever the key has no `=`, so a value may itself contain `=` |
| Config.Setenv | main.go:41 | An accepted pair sets the key to the value; a pair `os.Setenv` refuses (empty name, NUL byte) leaves the environment unchanged, its error ignored; no other key changes |
| Config.Getenv | main.go:23-26 | A set variable reads as its value; a non-empty result means the variable is set, so an unset one reads as `""` |
| Config.Load | main.go:30-42 | The load aborts exactly when some line lacks `=`; it then names the first such line, and every earlier line has `=` |
| Config.BlankLineAborts | main.go:36-40 | An empty line aborts the load at that line when all earlier lines are well formed |
| Config.LoadConcat | main.go:36-42 | Loading `pre + post` equals loading `post` from the environment `pre` left behind, with line numbers shifted by the length of `pre` |
| Config.AbortIgnoresLaterLines | main.go:38-40 | After an abort, appending any lines to the file changes neither the bad line nor the environment |
| Config.AbortKeepsPrefix | main.go:36-41 | An abort at line i leaves exactly the environment that loading lines 0..i-1 alone produces: every earlier line applied, none at or after i |
| Config.UnassignedKeyUnchanged | main.go:36-41 | A variable that no line sets keeps its prior value, or stays unset |
| Config.LastWriteWins | main.go:36-41 | When several lines set one key, the environment holds the value of the last such line |
| Config.SetGlobalVars | main.go:22-27 | Each of the four settings equals its environment variable, or `""` when unset (the access token is loaded this way and not used by the rest of the server) |
| Config.Startup | main.go:111-113 | Start-up fails exactly when some file line lacks `=` |
| Config.SettingFromLastLine | main.go:22-27 | After start-up, a setting holds the value of the last file line that set its variable |
| Config.SettingDefault | main.go:22-27 | After start-up, a setting no file line set keeps the inherited environment value, or `""` if there was none |
| Webhook.StatLogAsWritten | main.go:61-68 | As written, a failed directory check logs "does not exist" exactly when the error is an already-exists error, and nothing is logged when the check succeeds |
| Webhook.MissingRepoMisreported | main.go:62-67 | As written, a not-exist error from the check is logged as an unknown error, not as a missing repository |
| Webhook.StatLog | main.go:61-68 | Corrected: a failed check logs "does not exist" exactly for a not-exist error; it only ever logs and triggers no action |
| Webhook.StatLogsAgreeOnActions | main.go:61-68 | The as-written and corrected checks log the same number of lines and trigger no action |
| Webhook.PullRepo | main.go:59-77 | The directory check comes first; a successful check logs nothing and a failed one logs exactly its one as-written line before the pull, a missing directory being logged as an unknown error; exactly one pull follows whatever the check said; a failure is logged exactly when the pull fails, and nothing else is in the trace; the check and the pull use the configured repository directory |
| Webhook.PublishSite | main.go:49-57 | Hugo runs once, with the configured repository as working directory and the serving directory as output; a failure is logged exactly when hugo fails; "Site published" is logged once, last; the trace has two lines, or three after a failure |
| Webhook.ProcessPushEvent | main.go:80-85 | A push performs exactly one pull and then exactly one publish, with the configured directories; the trace is the pull's lines followed by the publish's lines and holds nothing else, so it starts with the directory check and ends with "Site published" |
| Webhook.HandleGithubWebhook | main.go:88-109 | The actions are `[Pull, Publish]` for an authentic, parsed push and none otherwise; any other request writes exactly one log line and nothing else; a push's trace runs from the directory check to "Site published" |
| Webhook.RejectedRequestsDoNothing | main.go:89-100 | A failed signature check or an unparsable payload runs neither git nor hugo |
| Webhook.PushPullsThenPublishes | main.go:102-104 | An authentic push runs `git pull` at some position strictly before hugo |
| Webhook.FailuresNeverChangeActions | main.go:61-82 | The outcomes of the check, the pull and the build never change which actions a request triggers |
| Webhook.FailedPullStillPublishes | main.go:73-82 | After a failed pull is logged, hugo still runs |
| Webhook.PublishedLoggedEvenOnHugoFailure | main.go:52-56 | A push's last log line is "Site published", and a hugo failure is logged exactly when hugo fails |
| Webhook.OtherEventIgnored | main.go:105-107 | Any other event kind is logged by its type name and triggers nothing |

## Findings

| source | as written | input that shows it | evidently intended | confidence | as-written member | corrected member |
|---|---|---|---|---|---|---|
| main.go:63 | `os.IsExist(err)` picks the "Local repo ... does not exist" message after `os.Stat` fails | `LOCAL_REPO_DIR` naming a directory that does not exist: `os.Stat` reports a not-exist error, `os.IsExist` is false, and "unknown error" is logged | `os.IsNotExist(err)`, so a missing directory is reported as missing | high (not executed) | Webhook.StatLogAsWritten, Webhook.MissingRepoMisreported | Webhook.StatLog |

The handler model follows the code as written (`StatLogAsWritten`). The
corrected `StatLog` differs only in the message it logs, and the pull still
runs under either reading (`Webhook.StatLogsAgreeOnActions`).

## Left out

- The HTTP server, the `/github` route and the port-8080 listener (main.go:114-116): network I/O.
- `github.ValidatePayload` and `github.ParseWebHook` (main.go:89, 96): library calls for HMAC signature checking and JSON decoding. They appear only as the request's `signatureValid` flag and its `parsed` option.
- The `git pull` and `hugo -d` subprocesses and `os.Stat` (main.go:50-52, 61, 71-73): external effects. They appear as trace entries whose outcomes are parameters.
- Opening the `env` file, `bufio.Scanner`'s line splitting (including its removal of a trailing carriage return), its token-size limit and its read errors (main.go:31-35, 44-46). The model takes the already-split lines.
- `os.Setenv` errors are ignored at main.go:41. The model does not model the OS. It uses the Go runtime's Unix acceptance rule: a pair with an empty name or a NUL byte in the name or value leaves the environment unchanged.
- Logging as output text, the deferred body close, and the implicit HTTP 200 response on every path.
- Concurrency between overlapping requests: the source has no locking, so there is nothing to state.
- Webhook.PullRepo: each directory is recorded as the configured string. The model does not say what an empty string means. An unset `LOCAL_REPO_DIR` reads as `""`. Go then runs `git pull` and `hugo` in the server's own working directory, and `os.Stat("")` fails with a not-exist error. "Uses the configured directories" compares strings only. The same holds for Webhook.PublishSite.

=== FILE: config.dfy ===
/** The configuration loader: the `env` file of `KEY=VALUE` lines is applied,
    line by line, to the process environment, and four settings are then read
    back out of that environment. */
module Config {
  import opened Wrappers

  /** The process environment: variable name to value. */
  type Env = map<string, string>

  /** The separator between a key and its value. */
  const Separator: char := '='

  /** Does a configuration line contain a key/value separator at all? */
  predicate HasSeparator(line: string) {
    Separator in line
  }

  /** Position of the first occurrence of `c` in `s`, if any. */
  function IndexOf(s: string, c: char): (r: Option<nat>)
    ensures r.None? <==> c !in s
    ensures r.Some? ==> r.value < |s| && s[r.value] == c && c !in s[..r.value]
  {
    if |s| == 0 then None
    else if s[0] == c then Some(0)
    else
      match IndexOf(s[1..], c)
      case None => None
      case Some(i) => Some(i + 1)
  }

  /** Split a line at its FIRST separator into (key, value), as Go's
      `strings.Cut(line, "=")` does; `None` when the line has no separator. */
  function Cut(line: string): (r: Option<(string, string)>)
    ensures r.Some? <==> HasSeparator(line)
    ensures r.Some? ==> line == r.value.0 + [Separator] + r.value.1
    ensures r.Some? ==> !HasSeparator(r.value.0)
  {
    match IndexOf(line, Separator)
    case None => None
    case Some(i) =>
      assert line == line[..i] + [Separator] + line[i + 1..];
      Some((line[..i], line[i + 1..]))
  }

  /** Joining a separator-free key and any value with `=` and cutting the
      line again gives back exactly that key and value: a value may itself
      contain `=`. */
  lemma CutJoin(key: string, value: string)
    requires !HasSeparator(key)
    ensures Cut(key + [Separator] + value) == Some((key, value))
  {
    var line := key + [Separator] + value;
    IndexOfAfterFree(key, Separator, value);
    assert line[..|key|] == key;
    assert line[|key| + 1..] == value;
  }

  /** The first `c` in `p + [c] + rest` is the one right after `p` when `p`
      holds no `c`. */
  lemma {:induction false} IndexOfAfterFree(p: string, c: char, rest: string)
    requires c !in p
    ensures IndexOf(p + [c] + rest, c) == Some(|p|)
    decreases |p|
  {
    var s := p + [c] + rest;
    if |p| > 0 {
      assert s[0] == p[0];
      assert s[1..] == p[1..] + [c] + rest;
      IndexOfAfterFree(p[1..], c, rest);
    }
  }

  /** Does the Go runtime's `os.Setenv` accept this pair? On Unix it refuses
      an empty name and a NUL byte in the name or the value; `=` cannot
      occur in a name produced by `Cut`. */
  predicate SetenvAccepts(key: string, value: string) {
    |key| > 0 && '\0' !in key && '\0' !in value
  }

  /** `os.Setenv`, whose error is ignored: a refused pair leaves the
      environment as it was. */
  function Setenv(env: Env, key: string, value: string): (r: Env)
    ensures SetenvAccepts(key, value) ==> key in r && r[key] == value
    ensures !SetenvAccepts(key, value) ==> r == env
    ensures r.Keys <= env.Keys + {key}
    ensures forall k :: k in env && k != key ==> k in r && r[k] == env[k]
  {
    if SetenvAccepts(key, value) then env[key := value] else env
  }

  /** Outcome of loading the file: every line applied, or the load aborted
      at line `badLine` (0-based) with the environment as it stood then. */
  datatype LoadOutcome = Loaded(env: Env) | Invalid(env: Env, badLine: nat) {

    /** The same outcome, with the bad line counted `n` lines further on. */
    function Shifted(n: nat): (r: LoadOutcome)
      ensures r.Loaded? <==> Loaded?
      ensures r.env == env
      ensures r.Invalid? ==> r.badLine == badLine + n
    {
      match this
      case Loaded(e) => Loaded(e)
      case Invalid(e, i) => Invalid(e, i + n)
    }
  }

  /** Load `lines` into the environment `env`: each line is cut at its first
      `=` and written into the environment as soon as it is read; the first
      line without `=` (an empty line included) aborts the load. */
  function Load(env: Env, lines: seq<string>): (r: LoadOutcome)
    ensures r.Invalid? <==> exists i :: 0 <= i < |lines| && !HasSeparator(lines[i])
    ensures r.Invalid? ==> r.badLine < |lines| && !HasSeparator(lines[r.badLine])
    ensures r.Invalid? ==> forall j :: 0 <= j < r.badLine ==> HasSeparator(lines[j])
    decreases |lines|
  {
    if |lines| == 0 then Loaded(env)
    else
      match Cut(lines[0])
      case None => Invalid(env, 0)
      case Some((key, value)) =>
        var rest := Load(Setenv(env, key, value), lines[1..]);
        assert forall i :: 1 <= i < |lines| ==> lines[i] == lines[1..][i - 1];
        rest.Shifted(1)
  }

  /** An empty line in the file is fatal: if every earlier line was well
      formed, the load aborts exactly there. */
  lemma BlankLineAborts(env: Env, lines: seq<string>, i: nat)
    requires i < |lines| && lines[i] == ""
    requires forall j :: 0 <= j < i ==> HasSeparator(lines[j])
    ensures Load(env, lines) == Invalid(Load(env, lines).env, i)
  {
  }

  /** Loading a concatenation: once the first part has loaded, the second
      part continues from the environment it left behind. */
  lemma {:induction false} LoadConcat(env: Env, pre: seq<string>, post: seq<string>)
    requires Load(env, pre).Loaded?
    ensures Load(env, pre + post) == Load(Load(env, pre).env, post).Shifted(|pre|)
    decreases |pre|
  {
    if |pre| == 0 {
      assert pre + post == post;
      assert Load(env, post).Shifted(0) == Load(env, post);
    } else {
      var (key, value) := Cut(pre[0]).value;
      var env1 := Setenv(env, key, value);
      assert (pre + post)[0] == pre[0];
      assert (pre + post)[1..] == pre[1..] + post;
      LoadConcat(env1, pre[1..], post);
      var tail := Load(Load(env1, pre[1..]).env, post);
      assert Load(env, pre).env == Load(env1, pre[1..]).env;
      assert Load(env, pre + post) == Load(env1, pre[1..] + post).Shifted(1);
      assert tail.Shifted(|pre| - 1).Shifted(1) == tail.Shifted(|pre|);
    }
  }

  /** Once the load aborts, nothing written after the bad line matters. */
  lemma {:induction false} AbortIgnoresLaterLines(env: Env, lines: seq<string>, post: seq<string>)
    requires Load(env, lines).Invalid?
    ensures Load(env, lines + post) == Load(env, lines)
    decreases |lines|
  {
    assert |lines| > 0;
    assert (lines + post)[0] == lines[0];
    match Cut(lines[0])
    case None =>
    case Some((key, value)) =>
      assert (lines + post)[1..] == lines[1..] + post;
      AbortIgnoresLaterLines(Setenv(env, key, value), lines[1..], post);
  }

  /** When the load aborts at line i, the environment it leaves is exactly the
      one that loading lines 0..i-1 alone produces: every earlier line has
      been applied and neither the bad line nor any later one has. */
  lemma AbortKeepsPrefix(env: Env, lines: seq<string>)
    requires Load(env, lines).Invalid?
    ensures Load(env, lines[..Load(env, lines).badLine]) == Loaded(Load(env, lines).env)
  {
    var i := Load(env, lines).badLine;
    var pre := lines[..i];
    var post := lines[i..];
    WellFormedLinesLoad(env, pre);
    assert lines == pre + post;
    LoadConcat(env, pre, post);
    BadFirstLineAborts(Load(env, pre).env, post);
  }

  /** Lines that all hold a separator load without aborting. */
  lemma WellFormedLinesLoad(env: Env, lines: seq<string>)
    requires forall j :: 0 <= j < |lines| ==> HasSeparator(lines[j])
    ensures Load(env, lines).Loaded?
  {
  }

  /** A file whose first line has no separator aborts at once, with the
      environment untouched. */
  lemma BadFirstLineAborts(env: Env, lines: seq<string>)
    requires |lines| > 0 && !HasSeparator(lines[0])
    ensures Load(env, lines) == Invalid(env, 0)
  {
  }

  /** Does this line set environment variable `key` (well formed, and a pair
      `os.Setenv` accepts)? */
  predicate Assigns(line: string, key: string) {
    Cut(line).Some? && Cut(line).value.0 == key && SetenvAccepts(key, Cut(line).value.1)
  }

  /** A key that no line assigns keeps its original value, or stays unset. */
  lemma {:induction false} UnassignedKeyUnchanged(env: Env, lines: seq<string>, key: string)
    requires Load(env, lines).Loaded?
    requires forall j :: 0 <= j < |lines| ==> !Assigns(lines[j], key)
    ensures key in Load(env, lines).env <==> key in env
    ensures key in env ==> Load(env, lines).env[key] == env[key]
    decreases |lines|
  {
    if |lines| > 0 {
      var (k, v) := Cut(lines[0]).value;
      assert !Assigns(lines[0], key);
      forall j | 0 <= j < |lines[1..]|
        ensures !Assigns(lines[1..][j], key)
      {
        assert lines[1..][j] == lines[j + 1];
      }
      UnassignedKeyUnchanged(Setenv(env, k, v), lines[1..], key);
    }
  }

  /** Last write wins: when several lines assign a key, the value of the last
      such line is the one the loaded environment holds. */
  lemma {:induction false} LastWriteWins(env: Env, lines: seq<string>, key: string, i: nat)
    requires Load(env, lines).Loaded?
    requires i < |lines| && Assigns(lines[i], key)
    requires forall j :: i < j < |lines| ==> !Assigns(lines[j], key)
    ensures key in Load(env, lines).env
    ensures Load(env, lines).env[key] == Cut(lines[i]).value.1
    decreases |lines|
  {
    var (k, v) := Cut(lines[0]).value;
    var env1 := Setenv(env, k, v);
    forall j | 0 <= j < |lines[1..]|
      ensures lines[1..][j] == lines[j + 1]
    {
    }
    if i == 0 {
      assert key in env1 && env1[key] == v;
      UnassignedKeyUnchanged(env1, lines[1..], key);
    } else {
      LastWriteWins(env1, lines[1..], key, i - 1);
    }
  }

  /** `os.Getenv`: the variable's value, or `""` when it is unset. */
  function Getenv(env: Env, key: string): (r: string)
    ensures key in env ==> r == env[key]
    ensures r != "" ==> key in env
  {
    if key in env then env[key] else ""
  }

  /** The four settings the server reads out of its environment at start-up. */
  datatype Settings = Settings(
    githubSecret: string,
    localRepoDir: string,
    serverDir: string,
    githubToken: string)

  const GithubSecretKey: string := "GITHUB_SECRET"
  const LocalRepoDirKey: string := "LOCAL_REPO_DIR"
  const ServerDirKey: string := "SERVER_DIR"
  const GithubTokenKey: string := "GITHUB_TOKEN"

  /** The environment variable names the settings are read from. */
  const SettingKeys: set<string> := {GithubSecretKey, LocalRepoDirKey, ServerDirKey, GithubTokenKey}

  /** The setting that is read from environment variable `key`. */
  function Field(s: Settings, key: string): string
    requires key in SettingKeys
  {
    if key == GithubSecretKey then s.githubSecret
    else if key == LocalRepoDirKey then s.localRepoDir
    else if key == ServerDirKey then s.serverDir
    else s.githubToken
  }

  /** Copy the four settings out of the environment. */
  function SetGlobalVars(env: Env): (s: Settings)
    ensures forall key :: key in SettingKeys ==> Field(s, key) == Getenv(env, key)
  {
    Settings(
      Getenv(env, GithubSecretKey),
      Getenv(env, LocalRepoDirKey),
      Getenv(env, ServerDirKey),
      Getenv(env, GithubTokenKey))
  }

  /** Start-up: load the file into the process environment `env`, then read
      the settings; `None` when the load aborts (the process exits). */
  function Startup(env: Env, lines: seq<string>): (r: Option<Settings>)
    ensures r.None? <==> exists i :: 0 <= i < |lines| && !HasSeparator(lines[i])
  {
    match Load(env, lines)
    case Invalid(_, _) => None
    case Loaded(e) => Some(SetGlobalVars(e))
  }

  /** After a successful start-up, a setting holds the value of the last file
      line that assigned its variable. */
  lemma SettingFromLastLine(env: Env, lines: seq<string>, key: string, i: nat)
    requires key in SettingKeys
    requires Startup(env, lines).Some?
    requires i < |lines| && Assigns(lines[i], key)
    requires forall j :: i < j < |lines| ==> !Assigns(lines[j], key)
    ensures Field(Startup(env, lines).value, key) == Cut(lines[i]).value.1
  {
    LastWriteWins(env, lines, key, i);
  }

  /** After a successful start-up, a setting that no file line assigned keeps
      the value the process environment already had, or `""` if it had none. */
  lemma SettingDefault(env: Env, lines: seq<string>, key: string)
    requires key in SettingKeys
    requires Startup(env, lines).Some?
    requires forall j :: 0 <= j < |lines| ==> !Assigns(lines[j], key)
    ensures Field(Startup(env, lines).value, key) == Getenv(env, key)
    ensures key !in env ==> Field(Startup(env, lines).value, key) == ""
  {
    UnassignedKeyUnchanged(env, lines, key);
  }
}

=== FILE: webhook.dfy ===
/** The webhook handler: one request is authenticated, decoded and, for a
    push event, answered by pulling the local repository and republishing the
    site. The handler is modelled as a pure function from the request and the
    outcomes of the external tools to the trace of effects it performs. */
module Webhook {
  import opened Wrappers
  import Config

  /** The decoded event kinds: only a push is acted upon; every other kind
      is known only by its type name. */
  datatype EventKind = PushEvent | OtherEvent(name: string)

  /** An inbound delivery, reduced to what the handler branches on: whether
      the signature checked out against the shared secret, and the decoded
      event (`None` when the payload did not parse). */
  datatype Request = Request(signatureValid: bool, parsed: Option<EventKind>)

  /** The errors `os.Stat` can report, grouped the way the handler tells them
      apart: not-exist, exist (what `os.IsExist` recognises) and the rest. */
  datatype FsError = ErrNotExist | ErrExist | ErrPermission | ErrOther

  /** The result of checking the local repository directory. */
  datatype StatResult = StatOk | StatFailed(err: FsError)

  /** What the outside world answers while a request is handled: the
      directory check, and whether `git pull` and `hugo` exit successfully. */
  datatype Outcomes = Outcomes(stat: StatResult, pullOk: bool, hugoOk: bool)

  /** The log lines the handler and its helpers write. */
  datatype Message =
    | BadSignature
    | ParseFailed
    | IgnoredEvent(name: string)
    | RepoMissing(dir: string)
    | UnknownStatError
    | PullFailed(dir: string)
    | HugoFailed
    | SitePublished

  /** One observable effect: a directory check, a subprocess run (with its
      working directory and, for hugo, its output directory), or a log line. */
  datatype Effect =
    | StatRepo(path: string)
    | GitPull(workDir: string)
    | RunHugo(workDir: string, outDir: string)
    | Log(msg: Message)

  /** The two actions a delivery can trigger. */
  datatype Action = Pull | Publish

  /** The action an effect performs, if it is one of the two. */
  function ActionOf(e: Effect): seq<Action> {
    match e
    case GitPull(_) => [Pull]
    case RunHugo(_, _) => [Publish]
    case _ => []
  }

  /** The actions a trace performs, in order. */
  function Actions(t: seq<Effect>): seq<Action>
    decreases |t|
  {
    if |t| == 0 then [] else ActionOf(t[0]) + Actions(t[1..])
  }

  /** The actions of a concatenated trace are those of its parts, in order. */
  lemma {:induction false} ActionsConcat(a: seq<Effect>, b: seq<Effect>)
    ensures Actions(a + b) == Actions(a) + Actions(b)
    decreases |a|
  {
    if |a| == 0 {
      assert a + b == b;
    } else {
      assert (a + b)[0] == a[0];
      assert (a + b)[1..] == a[1..] + b;
      ActionsConcat(a[1..], b);
    }
  }

  /** Does every directory check and subprocess in the trace use the
      configured directories: the local repository as its path or working
      directory, and the serving directory as hugo's output? */
  predicate RunsIn(t: seq<Effect>, s: Config.Settings) {
    forall i :: 0 <= i < |t| ==>
      (t[i].StatRepo? ==> t[i].path == s.localRepoDir) &&
      (t[i].GitPull? ==> t[i].workDir == s.localRepoDir) &&
      (t[i].RunHugo? ==> t[i].workDir == s.localRepoDir && t[i].outDir == s.serverDir)
  }

  /** Does the trace consist of log lines only? */
  predicate OnlyLogs(t: seq<Effect>) {
    forall i :: 0 <= i < |t| ==> t[i].Log?
  }

  /** A trace of log lines only performs no action and touches no directory. */
  lemma {:induction false} OnlyLogsAreInert(t: seq<Effect>, s: Config.Settings)
    requires OnlyLogs(t)
    ensures Actions(t) == []
    ensures RunsIn(t, s)
    decreases |t|
  {
    if |t| > 0 {
      assert OnlyLogs(t[1..]) by {
        forall i | 0 <= i < |t[1..]| ensures t[1..][i].Log? {
          assert t[1..][i] == t[i + 1];
        }
      }
      OnlyLogsAreInert(t[1..], s);
    }
  }

  /** Traces that each keep to the configured directories still do so when
      one follows the other. */
  lemma RunsInConcat(a: seq<Effect>, b: seq<Effect>, s: Config.Settings)
    requires RunsIn(a, s) && RunsIn(b, s)
    ensures RunsIn(a + b, s)
  {
  }

  /** The log written after a failed directory check, as the code is written:
      the "does not exist" message is chosen by `os.IsExist`, which holds only
      for already-exists errors. */
  function StatLogAsWritten(stat: StatResult, dir: string): (t: seq<Effect>)
    ensures stat.StatOk? <==> t == []
    ensures t == [Log(RepoMissing(dir))] <==> stat == StatFailed(ErrExist)
    ensures OnlyLogs(t)
  {
    match stat
    case StatOk => []
    case StatFailed(err) =>
      if err == ErrExist then [Log(RepoMissing(dir))] else [Log(UnknownStatError)]
  }

  /** A missing repository directory is not reported as missing by the code
      as written: it is logged as an unknown error. */
  lemma MissingRepoMisreported(dir: string)
    ensures StatLogAsWritten(StatFailed(ErrNotExist), dir) == [Log(UnknownStatError)]
    ensures StatLogAsWritten(StatFailed(ErrNotExist), dir) != [Log(RepoMissing(dir))]
  {
  }

  /** The log written after a failed directory check, as evidently intended:
      a not-exist error is reported as a missing repository. */
  function StatLog(stat: StatResult, dir: string): (t: seq<Effect>)
    ensures stat.StatOk? <==> t == []
    ensures t == [Log(RepoMissing(dir))] <==> stat == StatFailed(ErrNotExist)
    ensures forall e :: e in t ==> e == Log(RepoMissing(dir)) || e == Log(UnknownStatError)
    ensures OnlyLogs(t)
  {
    match stat
    case StatOk => []
    case StatFailed(err) =>
      if err == ErrNotExist then [Log(RepoMissing(dir))] else [Log(UnknownStatError)]
  }

  /** The two readings differ only in which message a failed check logs;
      neither performs an action. */
  lemma StatLogsAgreeOnActions(stat: StatResult, dir: string)
    ensures Actions(StatLogAsWritten(stat, dir)) == Actions(StatLog(stat, dir)) == []
    ensures |StatLogAsWritten(stat, dir)| == |StatLog(stat, dir)|
  {
  }

  /** A directory check and its log lines, followed by a pull and its log
      lines, performs one pull, in the configured repository directory. */
  lemma PullTraceShape(s: Config.Settings, statLog: seq<Effect>, pullLog: seq<Effect>)
    requires OnlyLogs(statLog) && OnlyLogs(pullLog)
    ensures var t := [StatRepo(s.localRepoDir)] + statLog + [GitPull(s.localRepoDir)] + pullLog;
      && t[0] == StatRepo(s.localRepoDir)
      && Actions(t) == [Pull]
      && RunsIn(t, s)
      && forall e :: e in t <==> e == StatRepo(s.localRepoDir) || e in statLog || e == GitPull(s.localRepoDir) || e in pullLog
  {
    var dir := s.localRepoDir;
    OnlyLogsAreInert(statLog, s);
    OnlyLogsAreInert(pullLog, s);
    var check := [StatRepo(dir)] + statLog;
    var pull := [GitPull(dir)] + pullLog;
    assert [StatRepo(dir)] + statLog + [GitPull(dir)] + pullLog == check + pull;
    ActionsConcat(check, pull);
    ActionsConcat([StatRepo(dir)], statLog);
    ActionsConcat([GitPull(dir)], pullLog);
    RunsInConcat([StatRepo(dir)], statLog, s);
    RunsInConcat([GitPull(dir)], pullLog, s);
    RunsInConcat(check, pull, s);
  }

  /** Bring the local repository up to date: check the directory, log a
      failed check (with the message choice of the code as written), then run
      `git pull` in it whatever the check said, logging a failed pull. */
  function PullRepo(s: Config.Settings, o: Outcomes): (t: seq<Effect>)
    ensures |t| > 0 && t[0] == StatRepo(s.localRepoDir)
    ensures o.stat.StatOk? ==> |t| > 1 && t[1] == GitPull(s.localRepoDir)
    ensures o.stat.StatFailed? ==> |t| > 2 && t[1].Log? && t[2] == GitPull(s.localRepoDir)
    ensures o.stat.StatFailed? ==> t[1] == StatLogAsWritten(o.stat, s.localRepoDir)[0]
    ensures o.stat == StatFailed(ErrNotExist) ==> t[1] == Log(UnknownStatError)
    ensures |t| == 2 + |StatLogAsWritten(o.stat, s.localRepoDir)| + (if o.pullOk then 0 else 1)
    ensures Actions(t) == [Pull]
    ensures Log(PullFailed(s.localRepoDir)) in t <==> !o.pullOk
    ensures RunsIn(t, s)
  {
    var dir := s.localRepoDir;
    var statLog := StatLogAsWritten(o.stat, dir);
    var pullLog := if o.pullOk then [] else [Log(PullFailed(dir))];
    PullTraceShape(s, statLog, pullLog);
    assert Log(PullFailed(dir)) !in statLog;
    [StatRepo(dir)] + statLog + [GitPull(dir)] + pullLog
  }

  /** Regenerate the site: run `hugo -d <serving dir>` in the configured
      repository directory, log a failure, and log "Site published" in every
      case. */
  function PublishSite(s: Config.Settings, o: Outcomes): (t: seq<Effect>)
    ensures |t| > 0 && t[0] == RunHugo(s.localRepoDir, s.serverDir)
    ensures t[|t| - 1] == Log(SitePublished)
    ensures |t| == (if o.hugoOk then 2 else 3)
    ensures Actions(t) == [Publish]
    ensures Log(HugoFailed) in t <==> !o.hugoOk
    ensures RunsIn(t, s)
  {
    var hugo := [RunHugo(s.localRepoDir, s.serverDir)];
    var logs := (if o.hugoOk then [] else [Log(HugoFailed)]) + [Log(SitePublished)];
    OnlyLogsAreInert(logs, s);
    ActionsConcat(hugo, logs);
    RunsInConcat(hugo, logs, s);
    hugo + logs
  }

  /** Handle a push: pull, then publish, neither step able to stop the other. */
  function ProcessPushEvent(s: Config.Settings, o: Outcomes): (t: seq<Effect>)
    ensures Actions(t) == [Pull, Publish]
    ensures RunsIn(t, s)
    ensures t[0] == StatRepo(s.localRepoDir) && t[|t| - 1] == Log(SitePublished)
    ensures |t| == |PullRepo(s, o)| + |PublishSite(s, o)|
    ensures t[..|PullRepo(s, o)|] == PullRepo(s, o) && t[|PullRepo(s, o)|..] == PublishSite(s, o)
    ensures forall e :: e in t <==> e in PullRepo(s, o) || e in PublishSite(s, o)
  {
    ActionsConcat(PullRepo(s, o), PublishSite(s, o));
    RunsInConcat(PullRepo(s, o), PublishSite(s, o), s);
    PullRepo(s, o) + PublishSite(s, o)
  }

  /** Is the request an authentic, well-formed push? */
  predicate IsAuthenticPush(req: Request) {
    req.signatureValid && req.parsed == Some(PushEvent)
  }

  /** Handle one delivery: authenticate, then decode, then dispatch on the
      event kind. Every early return only logs. */
  function HandleGithubWebhook(s: Config.Settings, req: Request, o: Outcomes): (t: seq<Effect>)
    ensures Actions(t) == (if IsAuthenticPush(req) then [Pull, Publish] else [])
    ensures RunsIn(t, s)
    ensures !IsAuthenticPush(req) ==> |t| == 1 && t[0].Log?
    ensures IsAuthenticPush(req) ==> t[0] == StatRepo(s.localRepoDir) && t[|t| - 1] == Log(SitePublished)
  {
    if !req.signatureValid then [Log(BadSignature)]
    else
      match req.parsed
      case None => [Log(ParseFailed)]
      case Some(PushEvent) => ProcessPushEvent(s, o)
      case Some(OtherEvent(name)) => [Log(IgnoredEvent(name))]
  }

  /** A failed signature check or an unparsable payload triggers neither a
      pull nor a publish, whatever else the request holds. */
  lemma RejectedRequestsDoNothing(s: Config.Settings, req: Request, o: Outcomes)
    requires !req.signatureValid || req.parsed.None?
    ensures forall i :: 0 <= i < |HandleGithubWebhook(s, req, o)| ==>
      !HandleGithubWebhook(s, req, o)[i].GitPull? && !HandleGithubWebhook(s, req, o)[i].RunHugo?
  {
  }

  /** An authentic push runs `git pull` at a position strictly before hugo. */
  lemma PushPullsThenPublishes(s: Config.Settings, req: Request, o: Outcomes)
    requires IsAuthenticPush(req)
    ensures exists i, j ::
              (0 <= i < j < |HandleGithubWebhook(s, req, o)| &&
               HandleGithubWebhook(s, req, o)[i] == GitPull(s.localRepoDir) &&
               HandleGithubWebhook(s, req, o)[j] == RunHugo(s.localRepoDir, s.serverDir))
  {
    var t := HandleGithubWebhook(s, req, o);
    var pull := PullRepo(s, o);
    var i := 1 + |StatLogAsWritten(o.stat, s.localRepoDir)|;
    assert pull[i] == GitPull(s.localRepoDir);
    assert t[i] == pull[i];
    assert t[|pull|] == RunHugo(s.localRepoDir, s.serverDir);
  }

  /** Whether the directory check, the pull or the build fail never changes
      which actions a delivery triggers: failures are only logged. */
  lemma FailuresNeverChangeActions(s: Config.Settings, req: Request, o1: Outcomes, o2: Outcomes)
    ensures Actions(HandleGithubWebhook(s, req, o1)) == Actions(HandleGithubWebhook(s, req, o2))
  {
  }

  /** A failed pull is logged and the publish still follows it. */
  lemma FailedPullStillPublishes(s: Config.Settings, req: Request, o: Outcomes)
    requires IsAuthenticPush(req) && !o.pullOk
    ensures exists i, j ::
              (0 <= i < j < |HandleGithubWebhook(s, req, o)| &&
               HandleGithubWebhook(s, req, o)[i] == Log(PullFailed(s.localRepoDir)) &&
               HandleGithubWebhook(s, req, o)[j] == RunHugo(s.localRepoDir, s.serverDir))
  {
    var t := HandleGithubWebhook(s, req, o);
    var pull := PullRepo(s, o);
    var i := 2 + |StatLogAsWritten(o.stat, s.localRepoDir)|;
    assert pull[i] == Log(PullFailed(s.localRepoDir));
    assert t[i] == pull[i];
    assert t[|pull|] == RunHugo(s.localRepoDir, s.serverDir);
  }

  /** "Site published" is the last thing a push logs, even when hugo failed. */
  lemma PublishedLoggedEvenOnHugoFailure(s: Config.Settings, req: Request, o: Outcomes)
    requires IsAuthenticPush(req)
    ensures HandleGithubWebhook(s, req, o)[|HandleGithubWebhook(s, req, o)| - 1] == Log(SitePublished)
    ensures Log(HugoFailed) in HandleGithubWebhook(s, req, o) <==> !o.hugoOk
  {
  }

  /** Any other event kind is logged by name and otherwise ignored. */
  lemma OtherEventIgnored(s: Config.Settings, name: string, o: Outcomes)
    ensures HandleGithubWebhook(s, Request(true, Some(OtherEvent(name))), o) == [Log(IgnoredEvent(name))]
    ensures Actions(HandleGithubWebhook(s, Request(true, Some(OtherEvent(name))), o)) == []
  {
  }
}

=== FILE: wrappers.dfy ===
/** The optional-value datatype shared by the configuration and webhook models. */
module Wrappers {

  /** Some value, or nothing (a failed search, a payload that did not parse). */
  datatype Option<+T> = None | Some(value: T)
}
